=== FILE: README.md ===
# Chess pieces, fractions and a list of books, modelled in Dafny

This project models three small Java programs and proves what they promise.

- **Chess pieces** (`chess.dfy`, `chess_properties.dfy`). A piece knows its square and
  its colour. It answers, with no board, whether it could move to a square
  (`canMove`) and whether it could capture a given piece (`canKill`). The
  abstract class `ChessPiece` and its six subclasses become one datatype `Piece`
  with a `Kind` tag. Construction checks the colour, the square and the pawn's
  forbidden row, in that order, and is a function returning a `Result`. Each
  subclass's `canMove` is a predicate, and `CanMove` and `CanKill` dispatch on the kind.
- **Fractions** (`fraction.dfy`, `gcd.dfy`). `FractionImpl` holds an int
  numerator and a positive int denominator in lowest terms. Its setters rewrite
  both fields in place, so it is a class with those two fields. `Valid()` is
  the class invariant. The public operations (`SetNumerator`, `SetDenominator`,
  `Reciprocal`, `Add`, `CompareTo`) take `Valid()` in and give it back, and the
  constructor and `Create` establish it. The private helper `ValidateAndNormalize`
  establishes it when it accepts and leaves the fields untouched when it rejects.
  Java's 32-bit `int` and 64-bit `long` ranges are explicit. So are its truncating `/` and `%`
  and its wrap-around on overflow. The rational value `Value(n, d)` is the
  independent meaning the operations are proved against. A thrown
  `IllegalArgumentException` is a `Failure` result, except in `ValidateAndNormalize`
  and `SetDenominator`, where it is the out-parameter `ok == false` and the fields stay
  as they were. A `null` argument is a nullable reference.
- **List of books** (`book_list.dfy`). The immutable list built from `EmptyNode`
  and `ElementNode(first, rest)` is a datatype. `count`, `allBefore`,
  `addAtEnd` and `toString` are recursive functions. They are proved against
  `Elements(l)`, the sequence of the list's books.

`wrappers.dfy` holds the `Option` and `Result` types.

## Model

| member | source | states |
|---|---|---|
| Chess.NewPiece | Assignments/Assignment2/src/ChessPiece.java:19-29 | a null colour fails first, then an off-board square; construction succeeds exactly for a colour, an on-board square and no pawn on its colour's back row (Pawn.java 31-44); a built piece holds exactly its arguments |
| Chess.InBounds | Assignments/Assignment2/src/ChessPiece.java:38-40 | an on-board square's index 8 * r + c lies in 0 to 63; SquareIndexIsBijection shows the accepted squares are exactly the 64 squares of the board |
| ChessProperties.SquareIndexIsBijection | Assignments/Assignment2/src/ChessPiece.java:31-40 | the index 8 * r + c is one-to-one on the squares inBounds accepts, and every number 0 to 63 is the index of one of them: the 8 x 8 board |
| Chess.Dr | Assignments/Assignment2/src/ChessPiece.java:49-51 | dr is the offset that takes the piece's row to the target row, positive exactly when the target row is higher |
| Chess.Dc | Assignments/Assignment2/src/ChessPiece.java:60-62 | dc is the offset that takes the piece's column to the target column, positive exactly when the target column is higher |
| Chess.IsSameSquare | Assignments/Assignment2/src/ChessPiece.java:71-73 | (r, c) is the piece's own square exactly when dr and dc are both zero; NoMoveToOwnSquare shows every canMove rejects it |
| Chess.PawnCanMove | Assignments/Assignment2/src/Pawn.java:60-93 | a pawn move stays on the board, leaves the square, stays in the column and covers one or two rows; characterised exactly by PawnMoves |
| Chess.KnightCanMove | Assignments/Assignment2/src/Knight.java:52-64 | a knight move stays on the board and changes both coordinates by three steps in all; characterised exactly by KnightMovesAreJumps |
| Chess.BishopCanMove | Assignments/Assignment2/src/Bishop.java:39-44 | a bishop move stays on the board and changes both coordinates; characterised exactly by BishopMovesAreDiagonals |
| Chess.RookCanMove | Assignments/Assignment2/src/Rook.java:44-57 | a rook can move exactly to the on-board squares where exactly one of row and column changes |
| Chess.QueenCanMove | Assignments/Assignment2/src/Queen.java:42-61 | a queen can move exactly where a rook or a bishop on the same square could |
| Chess.KingCanMove | Assignments/Assignment2/src/King.java:45-58 | a king move stays on the board and covers one or two unit steps; characterised exactly by KingMovesAreSteps |
| Chess.CanMove | Assignments/Assignment2/src/ChessPieceContract.java:17 | the move rule of whichever subclass the piece is; no move leaves the board or stays on the own square |
| Chess.DefaultCanKill | Assignments/Assignment2/src/ChessPiece.java:101-112 | a capture by the default rule is of a present enemy standing on the board |
| Chess.PawnCanKill | Assignments/Assignment2/src/Pawn.java:105-141 | a pawn captures only a present enemy on the board at a diagonal neighbour; characterised exactly by PawnCaptures |
| Chess.CanKill | Assignments/Assignment2/src/ChessPieceContract.java:19 | Pawn's override for pawns and ChessPiece's rule for the rest; only present enemies on the board are captured |
| ChessProperties.NoMoveToOwnSquare | Assignments/Assignment2/src/ChessPiece.java:71-73 | every canMove starts with the isSameSquare guard, so no piece of any kind can move to the square it stands on |
| ChessProperties.NoMoveOffBoard | Assignments/Assignment2/src/ChessPiece.java:38-40 | no piece can move to a square outside rows and columns 0 to 7 |
| ChessProperties.CaptureTargetsAreEnemies | Assignments/Assignment2/src/ChessPiece.java:101-112 | whatever a piece can capture is present, of the other colour, on the board and on another square |
| ChessProperties.DefaultCaptureIsMoveOntoEnemy | Assignments/Assignment2/src/ChessPiece.java:101-112 | for every kind but the pawn, capturing a piece is equivalent to being an enemy on a square the piece can move to; null is never captured |
| ChessProperties.MoveIgnoresColour | Assignments/Assignment2/src/ChessPieceContract.java:17 | for every kind but the pawn, canMove does not depend on the piece's colour |
| ChessProperties.MoveSymmetric | Assignments/Assignment2/src/ChessPiece.java:49-62 | every canMove but the pawn's depends only on the sizes of dr and dc, so for every kind but the pawn a piece that can move from A to B could move back from B to A |
| ChessProperties.MirrorPreservesMoves | Assignments/Assignment2/src/Pawn.java:60-93 | turning the board round (rows reversed, colours swapped) preserves every move rule, pawns included |
| ChessProperties.MirrorPreservesCaptures | Assignments/Assignment2/src/Pawn.java:105-141 | turning the board round preserves every capture rule, pawns included |
| ChessProperties.KnightMovesAreJumps | Assignments/Assignment2/src/Knight.java:52-64 | a knight can move exactly to the on-board squares at one of the eight L-shaped offsets |
| ChessProperties.KingMovesAreSteps | Assignments/Assignment2/src/King.java:45-58 | a king can move exactly to the on-board squares at one of the eight neighbouring offsets |
| ChessProperties.RookChangesOneCoordinate | Assignments/Assignment2/src/Rook.java:44-57 | a rook can move to an on-board square exactly when exactly one of row and column changes |
| ChessProperties.BishopKeepsSquareColour | Assignments/Assignment2/src/Bishop.java:39-44 | a bishop move keeps the parity of row + column |
| ChessProperties.BishopReachesDiagonals | Assignments/Assignment2/src/Bishop.java:39-44 | a bishop can move to every on-board square of its four diagonals, at any distance |
| ChessProperties.BishopMovesAreDiagonals | Assignments/Assignment2/src/Bishop.java:39-44 | a bishop can move exactly to the on-board squares k >= 1 steps away along one of its four diagonals |
| ChessProperties.QueenIsRookOrBishop | Assignments/Assignment2/src/Queen.java:42-61 | a queen can move to a square exactly when a rook or a bishop on her square could |
| ChessProperties.PawnMoves | Assignments/Assignment2/src/Pawn.java:60-93 | a pawn moves within its column one row forward (up for white, down for black), or two from its start row (1 for white, 6 for black), and nowhere else |
| ChessProperties.PawnCaptures | Assignments/Assignment2/src/Pawn.java:105-141 | a pawn captures exactly the on-board enemies one row forward and one column to either side, and never null |
| ChessProperties.PawnMoveAndCaptureDisjoint | Assignments/Assignment2/src/Pawn.java:105-141 | no square is both a move target and a capture target of the same pawn |
| ChessProperties.KnightFromCentre | Assignments/Assignment2/src/Knight.java:52-64 | the set of squares a knight on (3, 3) can reach is exactly its eight L-squares |
| ChessProperties.KingFromCentre | Assignments/Assignment2/src/King.java:45-58 | the set of squares a king on (3, 3) can reach is exactly its eight neighbours |
| ChessProperties.ConstructionScenarios | Assignments/Assignment2/src/Pawn.java:31-44 | constructions from the tests and further cases the rules decide: null colour, off-board squares and pawns on their back row are rejected, the rest are built |
| ChessProperties.MoveScenarios | Assignments/Assignment2/src/Pawn.java:60-93 | moves and captures from the tests and further cases the rules decide, for every kind, give the answers the rules call for |
| Euclid.GcdPositive | Assignments/Assignment3/src/FractionImpl.java:239-247 | Euclid's recurrence yields a positive result for arguments that are not both zero, no larger than a positive second argument |
| Euclid.GcdDivides | Assignments/Assignment3/src/FractionImpl.java:239-247 | the result of Euclid's recurrence divides both arguments |
| Euclid.GcdGreatest | Assignments/Assignment3/src/FractionImpl.java:239-247 | every common divisor of the arguments divides the result, so it is the greatest common divisor |
| Euclid.GcdComm | Assignments/Assignment3/src/FractionImpl.java:239-247 | the gcd does not depend on argument order |
| Euclid.ReducedCoprime | Assignments/Assignment3/src/FractionImpl.java:204-206 | dividing both numbers by their gcd leaves coprime numbers, which is why the stored fraction is in lowest terms |
| Fractions.GcdInt | Assignments/Assignment3/src/FractionImpl.java:239-247 | the gcd loop on non-negative ints returns the greatest common divisor, and the result is an int; ValidateAndNormalize runs it for every numerator but Integer.MIN_VALUE |
| Fractions.GcdLong | Assignments/Assignment3/src/FractionImpl.java:264-272 | the same loop on non-negative longs returns the greatest common divisor, and the result is a long |
| Fractions.Normalized | Assignments/Assignment3/src/FractionImpl.java:192-210 | the normal form the corrected validateAndNormalize stores for n/d is in lowest terms with a positive denominator. It has the same cross product as n/d and no larger magnitude, and it fits in int when n and d do |
| Fractions.ZeroIsZeroOverOne | Assignments/Assignment3/src/FractionImpl.java:197-202 | the only canonical form of zero is 0/1 |
| Fractions.ValueOrder | Assignments/Assignment3/src/FractionImpl.java:157-161 | for positive denominators, comparing cross products compares rational values, both for equality and for order |
| Fractions.CanonicalUnique | Assignments/Assignment3/src/FractionImpl.java:176-183 | two lowest-terms pairs with positive denominators that denote the same rational are identical |
| Fractions.NormalizedOfCanonical | Assignments/Assignment3/src/FractionImpl.java:192-210 | normalising a pair already in lowest terms leaves it unchanged |
| Fractions.NormalizedValue | Assignments/Assignment3/src/FractionImpl.java:192-210 | normalising preserves the rational value |
| Fractions.NormalizeScenarios | Assignments/Assignment3/src/FractionImpl.java:192-210 | 4/2, -2/4, 0/5, 12/18 and 6/15 normalise to 2/1, -1/2, 0/1, 2/3 and 2/5, as the tests expect |
| Fractions.TextScenarios | Assignments/Assignment3/src/FractionImpl.java:169-172 | -1/2 and 0/1 print as "-1 / 2" and "0 / 1", as the tests expect |
| Fractions.FractionImpl.ToString | Assignments/Assignment3/src/FractionImpl.java:169-172 | the text is FractionText, "numerator / denominator"; every zero prints as "0 / 1"; FractionTextInjective shows the text determines both fields |
| Fractions.ZeroText | Assignments/Assignment3/src/FractionImpl.java:197-201 | a canonical zero prints as "0 / 1" |
| Fractions.NatTextRoundTrip | Assignments/Assignment3/src/FractionImpl.java:169-172 | reading back the decimal text of a natural number gives the number |
| Fractions.IntTextRoundTrip | Assignments/Assignment3/src/FractionImpl.java:169-172 | the text of an int is an optional minus sign and digits, and reading it back gives the int |
| Fractions.FractionTextInjective | Assignments/Assignment3/src/FractionImpl.java:169-172 | toString's "n / d" text determines both fields |
| Fractions.AddFitsLong | Assignments/Assignment3/src/FractionImpl.java:122-128 | with int operands and positive denominators, a*d + c*b and b*d cannot overflow a long |
| Fractions.SumValue | Assignments/Assignment3/src/FractionImpl.java:127-128 | (a*d + c*b)/(b*d) is the rational sum a/b + c/d |
| Fractions.ReducedSum | Assignments/Assignment3/src/FractionImpl.java:131-133 | dividing the long sum by gcdLong of its magnitude and denominator gives its normal form, with the same value |
| Fractions.NoIntForm | Assignments/Assignment3/src/FractionImpl.java:137-140 | when the lowest-terms sum is out of int range, no lowest-terms pair of ints denotes the sum |
| Fractions.Wrap32Negate | Assignments/Assignment3/src/FractionImpl.java:99-102 | negating an int overflows only for Integer.MIN_VALUE, which negates to itself |
| Fractions.ReciprocalCanonical | Assignments/Assignment3/src/FractionImpl.java:94-103 | the reciprocal of a nonzero lowest-terms fraction is again in lowest terms, so the constructor keeps it as it is, and it is the multiplicative inverse |
| Fractions.ReciprocalValue | Assignments/Assignment3/src/FractionImpl.java:94-103 | d/n with the sign moved to the numerator times n/d is 1 |
| Fractions.FractionImpl.constructor | Assignments/Assignment3/src/FractionImpl.java:17-26 | a fraction built with a positive denominator satisfies the invariant and holds the normal form of its arguments |
| Fractions.FractionImpl.Create | Assignments/Assignment3/src/FractionImpl.java:17-26 | construction fails exactly when the denominator is not positive; otherwise it gives a fresh valid fraction holding the normal form |
| Fractions.FractionImpl.ValidateAndNormalize | Assignments/Assignment3/src/FractionImpl.java:192-210 | a non-positive denominator is rejected with the fields untouched; otherwise the fields become the normal form of n/d and the invariant holds |
| Fractions.FractionImpl.SetNumerator | Assignments/Assignment3/src/FractionImpl.java:54-58 | the fields become the normal form of the new numerator over the old denominator, and the invariant holds |
| Fractions.FractionImpl.SetDenominator | Assignments/Assignment3/src/FractionImpl.java:66-69 | rejects exactly the non-positive denominators, leaving the fraction unchanged; otherwise the fields become the normal form of the old numerator over the new denominator |
| Fractions.FractionImpl.Reciprocal | Assignments/Assignment3/src/FractionImpl.java:88-104 | fails exactly for 0 and for numerator Integer.MIN_VALUE; otherwise a fresh valid fraction d/n with the sign on the numerator, whose value times the original is 1 |
| Fractions.FractionImpl.Add | Assignments/Assignment3/src/FractionImpl.java:113-143 | null fails; a success is a fresh valid fraction whose value is the exact sum; a failure on a non-null argument happens only when no lowest-terms int pair denotes the sum |
| Fractions.FractionImpl.CompareTo | Assignments/Assignment3/src/FractionImpl.java:151-162 | fails exactly for null; otherwise returns -1, 0 or 1, negative, zero or positive exactly when this value is less than, equal to or greater than the other's |
| Fractions.TruncRem | Assignments/Assignment3/src/FractionImpl.java:242 | Java's int remainder is smaller in magnitude than the divisor |
| Fractions.GcdAsWritten | Assignments/Assignment3/src/FractionImpl.java:239-247 | the gcd loop over arbitrary ints, negative ones included, terminates and returns a non-zero value unless both arguments are zero |
| Fractions.NormalizeAsWritten | Assignments/Assignment3/src/FractionImpl.java:192-210 | validateAndNormalize in 32-bit arithmetic (Math.abs, the int gcd loop, truncating division, all wrapping); the fields it stores are ints, and zero becomes 0/1 |
| Fractions.GcdAsWrittenNonNegative | Assignments/Assignment3/src/FractionImpl.java:239-247 | on non-negative arguments the loop as written computes the greatest common divisor |
| Fractions.NormalizeAsWrittenAgrees | Assignments/Assignment3/src/FractionImpl.java:204-209 | for every int numerator except Integer.MIN_VALUE, validateAndNormalize in 32-bit arithmetic stores exactly the normal form |
| Fractions.NormalizeMinValueAsWritten | Assignments/Assignment3/src/FractionImpl.java:204-209 | for Integer.MIN_VALUE over 5 the code as written stores Integer.MIN_VALUE / -5, which breaks the invariant, although the normal form -2147483648/5 fits in int |
| Fractions.NormalizeMinValueOtherDenominators | Assignments/Assignment3/src/FractionImpl.java:204-209 | for Integer.MIN_VALUE over 1 and over 3 the code as written stores the normal form, while over 6 it stores 1073741824 / -3, whose normal form is -1073741824/3: the error depends on the denominator |
| Fractions.AddMinValueAsWritten | Assignments/Assignment3/src/FractionImpl.java:127-142 | add(-2147483647/5, -1/5), both canonical, reduces the long sum -10737418240/25 to Integer.MIN_VALUE/5, which passes the range check, and the constructor as written then stores Integer.MIN_VALUE / -5 |
| BookLists.MakeNode | Labs/Lab4/src/ElementNode.java:18-24 | a node is built exactly when both the book and the rest are present, and its books are the book followed by the rest's |
| BookLists.AllBefore | Labs/Lab4/src/ElementNode.java:39-46 | the filtered list is never longer than the original |
| BookLists.AllBeforeMembers | Labs/Lab4/src/ElementNode.java:39-46 | a book is in the filtered list exactly when it is in the original and was published before the year |
| BookLists.AllBeforeCons | Labs/Lab4/src/ElementNode.java:41-45 | filtering a node gives its first book, if published before the year, followed by the filtered rest |
| BookLists.AddAtEnd | Labs/Lab4/src/ElementNode.java:49-56 | fails exactly for a null book (on either node kind); otherwise the books are the old ones followed by the new one |
| BookLists.ToString | Labs/Lab4/src/ElementNode.java:59-67 | the text always starts with "[" and has at least two characters, so the substring after the rest's bracket is always defined |
| BookLists.Count | Labs/Lab4/src/EmptyNode.java:16-18 | count() is zero exactly for the empty list; CountIsLength shows it is the number of books |
| BookLists.CountIsLength | Labs/Lab4/src/ElementNode.java:27-30 | count() is the number of books in the list |
| BookLists.AllBeforeKeepsOrder | Labs/Lab4/src/ElementNode.java:39-46 | the books allBefore keeps appear in their original order |
| BookLists.AllBeforeAddAtEnd | Labs/Lab4/src/ElementNode.java:39-56 | filtering a list with a book added at the end is filtering the old list and then keeping the new book only if it is early enough, which fixes allBefore's result with duplicates counted |
| BookLists.AllBeforeTwice | Labs/Lab4/src/ElementNode.java:39-46 | filtering at one year and then another is filtering once at the earlier year, so filtering is idempotent |
| BookLists.AllBeforeKeepsAll | Labs/Lab4/src/EmptyNode.java:26-28 | allBefore returns the list unchanged exactly when every book in it was published before the year |
| BookLists.AddAtEndCount | Labs/Lab4/src/EmptyNode.java:31-33 | adding a book raises the count by one and puts the book at the last position |
| BookLists.ToStringIsBracketedJoin | Labs/Lab4/src/ElementNode.java:59-67 | when no book's text is empty, toString is the book texts joined with ", " inside square brackets |
| BookLists.EmptyTextDisappears | Labs/Lab4/src/ElementNode.java:62-64 | when the last book of a longer list prints as the empty string, it vanishes from the text together with its separator |
| BookLists.FilterScenario | Labs/Lab4/src/ElementNode.java:39-46 | for the tests' three books of 1997, 1937 and 1813, filtering at 1950 keeps the last two in order and filtering at 2000 keeps all three |

## Left out

- `toDouble` and `totalPrice` compute with `double` and `float`. Floating point is not modelled.
- `Book` is not part of this model. A book is reduced to its year, its price and the text its `toString` returns.
- The getters `getRow`, `getColumn`, `getColor`, `getNumerator` and `getDenominator` only return a field. The model reads the field directly.
- `validateDenominator` is inlined into `ValidateAndNormalize`.
- Fractions.FractionImpl.constructor: requires a positive denominator. The rejection a Java caller would see is modelled by `Fractions.FractionImpl.Create`.
- Fractions.FractionImpl.ValidateAndNormalize: computes the gcd of the exact |n|: with the int loop, as the Java does, except for Integer.MIN_VALUE, whose magnitude 2147483648 is not an int and goes to the long loop. This is the corrected behaviour given under Findings. The int arithmetic of the original is modelled separately by `Fractions.NormalizeAsWritten`.
- Fractions.FractionImpl.constructor, Fractions.FractionImpl.Create, Fractions.FractionImpl.SetNumerator and Fractions.FractionImpl.SetDenominator: all go through `ValidateAndNormalize`, so they inherit its corrected normalisation. For an Integer.MIN_VALUE numerator they promise the normal form. For some denominators (5 and 6, for example, but not 1, 2 or 3) the Java stores a pair with a negative denominator instead (NormalizeMinValueAsWritten, NormalizeMinValueOtherDenominators); `setNumerator(Integer.MIN_VALUE)` on x/5, for example, stores Integer.MIN_VALUE / -5.
- Fractions.FractionImpl.Add: it hands its reduced sum to the constructor, so it inherits the same correction. Its success clause promises a valid fraction with the exact sum, where the Java `(-2147483647/5).add(-1/5)` reduces to Integer.MIN_VALUE/5 and stores Integer.MIN_VALUE / -5 (AddMinValueAsWritten).
- Fractions.FractionImpl.Add and Fractions.FractionImpl.CompareTo: `other` is a `FractionImpl`. Other implementations of the `Fraction` interface are not modelled.
- Fractions.FractionImpl.Add: when the sum does not fit, the contract says only that no int form exists. It does not give the exception's message.
- Exception messages are carried in the error values. No contract constrains them.
- Reference identity is not modelled, and neither is `allBefore` on `EmptyNode` returning the same object rather than an equal one.

## Findings

| source | as written | input that shows it | evidently intended | confidence | as-written member | corrected member |
|---|---|---|---|---|---|---|
| Assignments/Assignment3/src/FractionImpl.java:204-206 | `Math.abs(Integer.MIN_VALUE)` wraps to `Integer.MIN_VALUE`. The gcd loop then returns -1, and `n /= g` overflows back to `Integer.MIN_VALUE`. The fields become `Integer.MIN_VALUE / -5`: a negative denominator and the sign of the value flipped | `new FractionImpl(Integer.MIN_VALUE, 5)` (over 6 the denominator is negative too, over 1, 2 or 3 nothing goes wrong); also `(-2147483647/5).add(-1/5)`, whose reduced sum is Integer.MIN_VALUE/5 (Fractions.AddMinValueAsWritten) | the normal form -2147483648/5, which fits in int | not executed | Fractions.NormalizeMinValueAsWritten | Fractions.FractionImpl.ValidateAndNormalize |

=== FILE: book_list.dfy ===
/** An immutable list of books built from EmptyNode and ElementNode(first, rest),
    with the recursive operations of IListOfBooks. */
module BookLists {
  import opened Wrappers

  /** A book: its publication year, its price, and the text its toString returns.
      The Book class is not part of this model; only these three observations of it
      are used. */
  datatype Book = Book(year: int, price: real, text: string)

  /** Book.toString(). */
  function BookStr(b: Book): string {
    b.text
  }

  datatype BookList = EmptyNode | ElementNode(first: Book, rest: BookList)

  /** The IllegalArgumentException a list operation throws. */
  datatype ListError = NullArgument(message: string)

  /** The books of a list, front to back. */
  function Elements(l: BookList): seq<Book> {
    match l
    case EmptyNode => []
    case ElementNode(first, rest) => [first] + Elements(rest)
  }

  /** new ElementNode(first, rest): both arguments must be present. */
  function MakeNode(first: Option<Book>, rest: Option<BookList>): (r: Result<BookList, ListError>)
    ensures r.Success? <==> first.Some? && rest.Some?
    ensures r.Success? ==> Elements(r.value) == [first.value] + Elements(rest.value)
  {
    if first.None? || rest.None? then Failure(NullArgument("first and rest must NOT be null"))
    else Success(ElementNode(first.value, rest.value))
  }

  /** count(): 0 for EmptyNode, 1 + rest.count() for ElementNode. */
  function Count(l: BookList): (n: nat)
    ensures n == 0 <==> l.EmptyNode?
  {
    match l
    case EmptyNode => 0
    case ElementNode(_, rest) => 1 + Count(rest)
  }

  /** allBefore(year): the books published before year. EmptyNode returns itself;
      ElementNode keeps its first book when it qualifies and filters the rest. */
  function AllBefore(l: BookList, year: int): (r: BookList)
    ensures Count(r) <= Count(l)
  {
    match l
    case EmptyNode => l
    case ElementNode(first, rest) =>
      if first.year < year then ElementNode(first, AllBefore(rest, year))
      else AllBefore(rest, year)
  }

  /** addAtEnd(book): a new list with book appended. A null book is rejected by
      ElementNode's own check and, at the end of the list, by the constructor. */
  function AddAtEnd(l: BookList, book: Option<Book>): (r: Result<BookList, ListError>)
    ensures r.Success? <==> book.Some?
    ensures r.Success? ==> Elements(r.value) == Elements(l) + [book.value]
  {
    match l
    case EmptyNode => MakeNode(book, Some(l))
    case ElementNode(first, rest) =>
      if book.None? then Failure(NullArgument("book cannot be null"))
      else
        match AddAtEnd(rest, book)
        case Success(r) => Success(ElementNode(first, r))
        case Failure(e) => Failure(e)
  }

  /** toString(): "[]" for EmptyNode. ElementNode renders its rest and, when that is
      "[]", gives "[" + first + "]"; otherwise it splices first + ", " in after the
      rest's opening bracket. */
  function ToString(l: BookList): (s: string)
    ensures |s| >= 2 && s[0] == '['
  {
    match l
    case EmptyNode => "[]"
    case ElementNode(first, rest) =>
      var restString := ToString(rest);
      if restString == "[]" then "[" + BookStr(first) + "]"
      else "[" + BookStr(first) + ", " + restString[1..]
  }

  // ---------------------------------------------------------------------------
  // Properties

  lemma {:induction false} CountIsLength(l: BookList)
    ensures Count(l) == |Elements(l)|
  {
    match l
    case EmptyNode =>
    case ElementNode(_, rest) => CountIsLength(rest);
  }

  /** A book survives allBefore exactly when it is in the list and was published
      before the year. */
  lemma {:induction false} AllBeforeMembers(l: BookList, year: int, b: Book)
    ensures b in Elements(AllBefore(l, year)) <==> b in Elements(l) && b.year < year
  {
    match l
    case EmptyNode =>
    case ElementNode(first, rest) => AllBeforeMembers(rest, year, b);
  }

  /** s is t with some elements removed, the rest kept in order. */
  predicate IsSubsequence(s: seq<Book>, t: seq<Book>)
    decreases |t|
  {
    if s == [] then true
    else if t == [] then false
    else (s[0] == t[0] && IsSubsequence(s[1..], t[1..])) || IsSubsequence(s, t[1..])
  }

  /** allBefore keeps the surviving books in their original order. */
  lemma {:induction false} AllBeforeKeepsOrder(l: BookList, year: int)
    ensures IsSubsequence(Elements(AllBefore(l, year)), Elements(l))
  {
    match l
    case EmptyNode =>
    case ElementNode(first, rest) =>
      AllBeforeKeepsOrder(rest, year);
      var s, t := Elements(AllBefore(l, year)), Elements(l);
      assert t[1..] == Elements(rest);
      if first.year < year {
        assert s[0] == t[0] && s[1..] == Elements(AllBefore(rest, year));
      }
  }

  /** Filtering a list with a book added at the end filters the old list and then
      keeps or drops the new book; with EmptyNode's case this fixes allBefore
      completely, multiplicities included. */
  lemma {:induction false} AllBeforeAddAtEnd(l: BookList, b: Book, year: int)
    ensures AddAtEnd(l, Some(b)).Success?
    ensures Elements(AllBefore(AddAtEnd(l, Some(b)).value, year)) ==
      Elements(AllBefore(l, year)) + (if b.year < year then [b] else [])
  {
    match l
    case EmptyNode =>
    case ElementNode(first, rest) =>
      AllBeforeAddAtEnd(rest, b, year);
      var r := AddAtEnd(rest, Some(b)).value;
      assert AddAtEnd(l, Some(b)).value == ElementNode(first, r);
      var head := if first.year < year then [first] else [];
      var tail := if b.year < year then [b] else [];
      AllBeforeCons(first, rest, year);
      AllBeforeCons(first, r, year);
      assert head + (Elements(AllBefore(rest, year)) + tail) ==
        (head + Elements(AllBefore(rest, year))) + tail;
  }

  /** allBefore on a node: the first book if it qualifies, then the filtered rest. */
  lemma AllBeforeCons(first: Book, rest: BookList, year: int)
    ensures Elements(AllBefore(ElementNode(first, rest), year)) ==
      (if first.year < year then [first] else []) + Elements(AllBefore(rest, year))
  {
  }

  /** Filtering twice filters at the earlier year. */
  lemma {:induction false} AllBeforeTwice(l: BookList, y1: int, y2: int)
    ensures AllBefore(AllBefore(l, y1), y2) == AllBefore(l, if y1 < y2 then y1 else y2)
  {
    match l
    case EmptyNode =>
    case ElementNode(_, rest) => AllBeforeTwice(rest, y1, y2);
  }

  /** allBefore drops nothing exactly when every book qualifies. */
  lemma {:induction false} AllBeforeKeepsAll(l: BookList, year: int)
    ensures AllBefore(l, year) == l <==> forall b :: b in Elements(l) ==> b.year < year
  {
    match l
    case EmptyNode =>
    case ElementNode(first, rest) =>
      AllBeforeKeepsAll(rest, year);
      if first.year >= year {
        assert Count(AllBefore(l, year)) <= Count(rest) < Count(l);
      }
  }

  /** addAtEnd puts one more book at the end. */
  lemma AddAtEndCount(l: BookList, b: Book)
    ensures AddAtEnd(l, Some(b)).Success?
    ensures Count(AddAtEnd(l, Some(b)).value) == Count(l) + 1
    ensures |Elements(AddAtEnd(l, Some(b)).value)| == Count(l) + 1
    ensures Elements(AddAtEnd(l, Some(b)).value)[Count(l)] == b
  {
    CountIsLength(l);
    CountIsLength(AddAtEnd(l, Some(b)).value);
  }

  /** The book texts of a list, in order. */
  function Texts(s: seq<Book>): seq<string> {
    if s == [] then [] else [BookStr(s[0])] + Texts(s[1..])
  }

  /** Strings joined with a separator between neighbours. */
  function Join(parts: seq<string>, sep: string): string {
    if parts == [] then ""
    else if |parts| == 1 then parts[0]
    else parts[0] + sep + Join(parts[1..], sep)
  }

  /** When no book prints as the empty string, toString is the book texts joined
      with ", " between brackets. */
  lemma {:induction false} ToStringIsBracketedJoin(l: BookList)
    requires forall b :: b in Elements(l) ==> BookStr(b) != ""
    ensures ToString(l) == "[" + Join(Texts(Elements(l)), ", ") + "]"
  {
    match l
    case EmptyNode =>
    case ElementNode(first, rest) =>
      ToStringIsBracketedJoin(rest);
      var rs := Elements(rest);
      var ts := Texts([first] + rs);
      TextsCons(first, rs);
      if rest.EmptyNode? {
        assert ts == [BookStr(first)];
      } else {
        var j := Join(Texts(rs), ", ");
        JoinOfNonEmptyTexts(rs);
        assert ToString(rest) == "[" + j + "]";
        assert ToString(rest)[1..] == j + "]";
        assert |ts| > 1 && ts[1..] == Texts(rs);
      }
  }

  lemma TextsCons(b: Book, s: seq<Book>)
    ensures Texts([b] + s) == [BookStr(b)] + Texts(s)
  {
    assert ([b] + s)[1..] == s;
  }

  /** Joining the texts of a non-empty list of books with non-empty texts gives a
      non-empty string. */
  lemma JoinOfNonEmptyTexts(s: seq<Book>)
    requires s != [] && BookStr(s[0]) != ""
    ensures |Texts(s)| > 0 && Join(Texts(s), ", ") != ""
  {
    var ts := Texts(s);
    assert ts[0] == BookStr(s[0]);
    if |ts| > 1 {
      assert Join(ts, ", ") == ts[0] + ", " + Join(ts[1..], ", ");
    }
  }

  /** The comparison with "[]" is what makes the empty text special: a book that
      prints as "" at the end of a longer list disappears from the text. */
  lemma EmptyTextDisappears(b: Book, e: Book)
    requires BookStr(b) == "x" && BookStr(e) == ""
    ensures ToString(ElementNode(b, ElementNode(e, EmptyNode))) == "[x]"
    ensures "[" + Join(Texts([b, e]), ", ") + "]" == "[x, ]"
  {
    assert ToString(ElementNode(e, EmptyNode)) == "[]";
    assert Texts([b, e]) == ["x", ""] by {
      assert [b, e][1..] == [e] && [e][1..] == [];
      assert Texts([e]) == [""];
    }
  }

  /** The lists the tests build: filtering at 1950 keeps two of three books, at 2000
      all three. */
  lemma FilterScenario(hp: Book, hobbit: Book, pride: Book)
    requires hp.year == 1997 && hobbit.year == 1937 && pride.year == 1813
    ensures var three := ElementNode(hp, ElementNode(hobbit, ElementNode(pride, EmptyNode)));
      Count(AllBefore(three, 1950)) == 2 && Count(AllBefore(three, 2000)) == 3 &&
      Elements(AllBefore(three, 1950)) == [hobbit, pride]
  {
    var one := ElementNode(pride, EmptyNode);
    var two := ElementNode(hobbit, one);
    var three := ElementNode(hp, two);
    assert AllBefore(one, 1950) == one && AllBefore(one, 2000) == one;
    assert AllBefore(two, 1950) == two && AllBefore(two, 2000) == two;
    assert AllBefore(three, 1950) == ElementNode(hobbit, ElementNode(pride, EmptyNode));
    assert AllBefore(three, 2000) == three;
    assert Count(one) == 1 && Count(two) == 2 && Count(three) == 3;
    assert Elements(one) == [pride];
    assert Elements(two) == [hobbit] + [pride];
  }
}

=== FILE: chess.dfy ===
/** Chess pieces that know their own square and colour and answer, in isolation,
    whether they could move to a square or capture a given piece. The abstract class
    ChessPiece and its six subclasses become one datatype with a kind tag; the
    overridden canMove and canKill become functions that match on the tag. */
module Chess {
  import opened Wrappers

  datatype Color = White | Black

  datatype Kind = Pawn | Knight | Bishop | Rook | Queen | King

  /** A constructed piece: row, column and colour are fixed for its lifetime. */
  datatype Piece = Piece(kind: Kind, row: int, col: int, color: Color)

  /** Why construction threw IllegalArgumentException. */
  datatype PieceError =
    | NullColor
    | OutOfBounds(row: int, col: int)
    | PawnOnRoyalRow(color: Color)

  /** The 8 x 8 board: rows and columns 0 to 7, so each square on it has its own
      index 8 * r + c among the 64. */
  function InBounds(r: int, c: int): (b: bool)
    ensures b ==> 0 <= 8 * r + c < 64
  {
    0 <= r <= 7 && 0 <= c <= 7
  }

  /** Row difference from the piece to a target row. */
  function Dr(p: Piece, targetRow: int): (d: int)
    ensures p.row + d == targetRow
    ensures d > 0 <==> targetRow > p.row
  {
    targetRow - p.row
  }

  /** Column difference from the piece to a target column. */
  function Dc(p: Piece, targetCol: int): (d: int)
    ensures p.col + d == targetCol
    ensures d > 0 <==> targetCol > p.col
  {
    targetCol - p.col
  }

  /** (r, c) is the square the piece stands on: both differences are zero. */
  function IsSameSquare(p: Piece, r: int, c: int): (b: bool)
    ensures b <==> Dr(p, r) == 0 && Dc(p, c) == 0
  {
    p.row == r && p.col == c
  }

  function Abs(x: int): nat {
    if x < 0 then -x else x
  }

  /** The row a pawn of this colour may never be placed on. */
  function RoyalRow(color: Color): int {
    if color == White then 0 else 7
  }

  /** What every constructed piece satisfies. */
  predicate Placeable(p: Piece) {
    InBounds(p.row, p.col) && !(p.kind == Pawn && p.row == RoyalRow(p.color))
  }

  /** The constructors: ChessPiece checks the colour and then the square, and Pawn
      then rejects its royal row. A piece that is built holds exactly the arguments
      given, so the getters return them. */
  function NewPiece(kind: Kind, row: int, col: int, color: Option<Color>): (r: Result<Piece, PieceError>)
    ensures color.None? ==> r == Failure(NullColor)
    ensures color.Some? && !InBounds(row, col) ==> r == Failure(OutOfBounds(row, col))
    ensures r.Success? <==>
      color.Some? && InBounds(row, col) && !(kind == Pawn && row == RoyalRow(color.value))
    ensures r.Success? ==>
      r.value.kind == kind && r.value.row == row && r.value.col == col &&
      r.value.color == color.value && Placeable(r.value)
  {
    if color.None? then Failure(NullColor)
    else if !InBounds(row, col) then Failure(OutOfBounds(row, col))
    else if kind == Pawn && color.value == White && row == 0 then Failure(PawnOnRoyalRow(White))
    else if kind == Pawn && color.value == Black && row == 7 then Failure(PawnOnRoyalRow(Black))
    else Success(Piece(kind, row, col, color.value))
  }

  // ---------------------------------------------------------------------------
  // canMove, one rule per subclass

  /** Pawn.canMove: straight ahead by one, or by two from the start row. */
  function PawnCanMove(p: Piece, row: int, col: int): (r: bool)
    ensures r ==> InBounds(row, col) && !IsSameSquare(p, row, col)
    ensures r ==> col == p.col && 1 <= Abs(row - p.row) <= 2
  {
    if !InBounds(row, col) || IsSameSquare(p, row, col) then false
    else
      var dRow, dCol := Dr(p, row), Dc(p, col);
      if dCol != 0 then false
      else if p.color == White then dRow == 1 || (p.row == 1 && dRow == 2)
      else dRow == -1 || (p.row == 6 && dRow == -2)
  }

  /** Knight.canMove: two squares one way and one the other. */
  function KnightCanMove(p: Piece, row: int, col: int): (r: bool)
    ensures r ==> InBounds(row, col) && !IsSameSquare(p, row, col)
    ensures r ==> row != p.row && col != p.col && Abs(row - p.row) + Abs(col - p.col) == 3
  {
    if !InBounds(row, col) || IsSameSquare(p, row, col) then false
    else
      var rowSteps, colSteps := Abs(row - p.row), Abs(col - p.col);
      (rowSteps == 2 && colSteps == 1) || (rowSteps == 1 && colSteps == 2)
  }

  /** Bishop.canMove: as far as it likes along a diagonal. */
  function BishopCanMove(p: Piece, row: int, col: int): (r: bool)
    ensures r ==> InBounds(row, col) && !IsSameSquare(p, row, col)
    ensures r ==> row != p.row && col != p.col
  {
    if !InBounds(row, col) || IsSameSquare(p, row, col) then false
    else Abs(Dr(p, row)) == Abs(Dc(p, col))
  }

  /** Rook.canMove: along its row or its column. */
  function RookCanMove(p: Piece, row: int, col: int): (r: bool)
    ensures r ==> InBounds(row, col) && !IsSameSquare(p, row, col)
    ensures r <==> InBounds(row, col) && ((row == p.row) != (col == p.col))
  {
    if !InBounds(row, col) || IsSameSquare(p, row, col) then false
    else if row == p.row then true
    else col == p.col
  }

  /** Queen.canMove: along its row, its column or a diagonal. */
  function QueenCanMove(p: Piece, row: int, col: int): (r: bool)
    ensures r <==> RookCanMove(p, row, col) || BishopCanMove(p, row, col)
  {
    if !InBounds(row, col) || IsSameSquare(p, row, col) then false
    else if row == p.row then true
    else if col == p.col then true
    else Abs(row - p.row) == Abs(col - p.col)
  }

  /** King.canMove: one square in any direction. */
  function KingCanMove(p: Piece, row: int, col: int): (r: bool)
    ensures r ==> InBounds(row, col) && !IsSameSquare(p, row, col)
    ensures r ==> 1 <= Abs(row - p.row) + Abs(col - p.col) <= 2
  {
    if !InBounds(row, col) || IsSameSquare(p, row, col) then false
    else
      var rowSteps, colSteps := Abs(row - p.row), Abs(col - p.col);
      rowSteps <= 1 && colSteps <= 1
  }

  /** canMove(row, col), dispatched on the kind of piece as Java dispatches on the
      subclass. */
  function CanMove(p: Piece, row: int, col: int): (r: bool)
    ensures r ==> InBounds(row, col) && !IsSameSquare(p, row, col)
  {
    match p.kind
    case Pawn => PawnCanMove(p, row, col)
    case Knight => KnightCanMove(p, row, col)
    case Bishop => BishopCanMove(p, row, col)
    case Rook => RookCanMove(p, row, col)
    case Queen => QueenCanMove(p, row, col)
    case King => KingCanMove(p, row, col)
  }

  // ---------------------------------------------------------------------------
  // canKill: ChessPiece's default and Pawn's override

  /** The default rule: not null, not a friend, and the move pattern reaches it. */
  function DefaultCanKill(p: Piece, other: Option<Piece>): (r: bool)
    ensures r ==> other.Some? && other.value.color != p.color
    ensures r ==> InBounds(other.value.row, other.value.col)
  {
    if other.None? then false
    else if other.value.color == p.color then false
    else CanMove(p, other.value.row, other.value.col)
  }

  /** Pawn's rule: one step diagonally forward. */
  function PawnCanKill(p: Piece, other: Option<Piece>): (r: bool)
    ensures r ==> other.Some? && other.value.color != p.color
    ensures r ==> InBounds(other.value.row, other.value.col)
    ensures r ==> Abs(other.value.row - p.row) == 1 && Abs(other.value.col - p.col) == 1
  {
    if other.None? then false
    else if other.value.color == p.color then false
    else
      var targetRow, targetCol := other.value.row, other.value.col;
      if !InBounds(targetRow, targetCol) then false
      else if targetRow == p.row && targetCol == p.col then false
      else
        var dRow, dCol := targetRow - p.row, Abs(targetCol - p.col);
        if p.color == White then dRow == 1 && dCol == 1
        else dRow == -1 && dCol == 1
  }

  /** canKill(piece), dispatched on the kind of piece. */
  function CanKill(p: Piece, other: Option<Piece>): (r: bool)
    ensures r ==> other.Some? && other.value.color != p.color
    ensures r ==> InBounds(other.value.row, other.value.col)
  {
    if p.kind == Pawn then PawnCanKill(p, other) else DefaultCanKill(p, other)
  }
}

=== FILE: chess_properties.dfy ===
/** What the move and capture rules guarantee: the shared guards, each piece's
    pattern against an independent description of it, and the relations between
    pieces (the queen as rook plus bishop, the pawn's move/capture split, symmetry
    of the board). */
module ChessProperties {
  import opened Wrappers
  import opened Chess

  // ---------------------------------------------------------------------------
  // Guards shared by every piece

  /** No piece moves to its own square. */
  lemma NoMoveToOwnSquare(p: Piece)
    ensures !CanMove(p, p.row, p.col)
  {
  }

  /** No piece moves off the board, wherever it stands. */
  lemma NoMoveOffBoard(p: Piece, r: int, c: int)
    requires !InBounds(r, c)
    ensures !CanMove(p, r, c)
  {
  }

  /** The squares inBounds accepts are exactly the 64 squares of the board: the index
      8 * r + c gives each of them its own number in 0 to 63, and every such number
      belongs to one of them. */
  lemma SquareIndexIsBijection(r1: int, c1: int, r2: int, c2: int, k: int)
    ensures InBounds(r1, c1) && InBounds(r2, c2) && 8 * r1 + c1 == 8 * r2 + c2 ==>
      r1 == r2 && c1 == c2
    ensures 0 <= k < 64 ==> InBounds(k / 8, k % 8) && 8 * (k / 8) + k % 8 == k
  {
  }

  /** Whatever a piece can capture is an enemy standing on another square of the
      board; in particular nothing captures an absent piece or a friend. */
  lemma CaptureTargetsAreEnemies(p: Piece, other: Option<Piece>)
    requires CanKill(p, other)
    ensures other.Some? && other.value.color != p.color
    ensures InBounds(other.value.row, other.value.col)
    ensures !IsSameSquare(p, other.value.row, other.value.col)
  {
  }

  /** For every piece but the pawn, capturing is moving onto an enemy. */
  lemma DefaultCaptureIsMoveOntoEnemy(p: Piece, o: Piece)
    requires p.kind != Pawn
    ensures !CanKill(p, None)
    ensures CanKill(p, Some(o)) <==> o.color != p.color && CanMove(p, o.row, o.col)
  {
  }

  /** Only the pawn's moves depend on its colour. */
  lemma MoveIgnoresColour(p: Piece, color: Color, r: int, c: int)
    requires p.kind != Pawn
    ensures CanMove(p, r, c) == CanMove(p.(color := color), r, c)
  {
  }

  /** Every piece but the pawn can move back to where it came from. */
  lemma MoveSymmetric(p: Piece, r: int, c: int)
    requires p.kind != Pawn && InBounds(p.row, p.col)
    requires CanMove(p, r, c)
    ensures CanMove(Piece(p.kind, r, c, p.color), p.row, p.col)
  {
  }

  /** The board seen from the other side: rows reversed and colours swapped. */
  function Opponent(color: Color): Color {
    if color == White then Black else White
  }

  function Mirror(p: Piece): Piece {
    Piece(p.kind, 7 - p.row, p.col, Opponent(p.color))
  }

  /** Every move rule, pawns included, is the same for both colours once the board
      is turned round... */
  lemma MirrorPreservesMoves(p: Piece, r: int, c: int)
    ensures CanMove(p, r, c) <==> CanMove(Mirror(p), 7 - r, c)
  {
    match p.kind
    case Pawn =>
    case Knight =>
    case Bishop =>
    case Rook =>
    case Queen =>
    case King =>
  }

  /** ...and so is every capture rule. */
  lemma MirrorPreservesCaptures(p: Piece, o: Piece)
    ensures CanKill(p, Some(o)) <==> CanKill(Mirror(p), Some(Mirror(o)))
  {
    if p.kind != Pawn {
      MirrorPreservesMoves(p, o.row, o.col);
    }
  }

  // ---------------------------------------------------------------------------
  // Each piece against an independent description of its pattern

  /** The eight knight jumps, as offsets. */
  const KnightJumps: set<(int, int)> :=
    {(2, 1), (2, -1), (-2, 1), (-2, -1), (1, 2), (1, -2), (-1, 2), (-1, -2)}

  /** The eight king steps, as offsets. */
  const KingSteps: set<(int, int)> :=
    {(1, 1), (1, 0), (1, -1), (0, 1), (0, -1), (-1, 1), (-1, 0), (-1, -1)}

  lemma KnightMovesAreJumps(p: Piece, r: int, c: int)
    requires p.kind == Knight
    ensures CanMove(p, r, c) <==> InBounds(r, c) && (r - p.row, c - p.col) in KnightJumps
  {
  }

  lemma KingMovesAreSteps(p: Piece, r: int, c: int)
    requires p.kind == King
    ensures CanMove(p, r, c) <==> InBounds(r, c) && (r - p.row, c - p.col) in KingSteps
  {
  }

  /** A rook move changes exactly one of the two coordinates. */
  lemma RookChangesOneCoordinate(p: Piece, r: int, c: int)
    requires p.kind == Rook
    ensures CanMove(p, r, c) <==> InBounds(r, c) && ((r == p.row) != (c == p.col))
  {
  }

  /** A bishop never changes the colour of its square... */
  lemma BishopKeepsSquareColour(p: Piece, r: int, c: int)
    requires p.kind == Bishop && CanMove(p, r, c)
    ensures (r + c) % 2 == (p.row + p.col) % 2
  {
    var k := r - p.row;
    assert c - p.col == k || c - p.col == -k;
    assert r + c == p.row + p.col + 2 * k || r + c == p.row + p.col;
  }

  /** ...and reaches every square of its four diagonals that is on the board. */
  lemma BishopReachesDiagonals(p: Piece, k: int, sr: int, sc: int)
    requires p.kind == Bishop && k >= 1 && sr in {-1, 1} && sc in {-1, 1}
    requires InBounds(p.row + sr * k, p.col + sc * k)
    ensures CanMove(p, p.row + sr * k, p.col + sc * k)
  {
  }

  /** A bishop moves exactly to the on-board squares k >= 1 steps away along one of
      its four diagonals. */
  lemma BishopMovesAreDiagonals(p: Piece, r: int, c: int)
    requires p.kind == Bishop
    ensures CanMove(p, r, c) <==>
      InBounds(r, c) &&
      exists k: int, sr: int, sc: int :: k >= 1 && sr in {-1, 1} && sc in {-1, 1} &&
        r == p.row + sr * k && c == p.col + sc * k
  {
    if CanMove(p, r, c) {
      var k := Abs(r - p.row);
      var sr: int := if r < p.row then -1 else 1;
      var sc: int := if c < p.col then -1 else 1;
      assert r == p.row + sr * k && c == p.col + sc * k;
    }
  }

  /** The queen moves as a rook or as a bishop on the same square. */
  lemma QueenIsRookOrBishop(row: int, col: int, color: Color, r: int, c: int)
    ensures CanMove(Piece(Queen, row, col, color), r, c) <==>
      CanMove(Piece(Rook, row, col, color), r, c) || CanMove(Piece(Bishop, row, col, color), r, c)
  {
  }

  /** White pawns move up the board, black pawns down, one square or, from the
      start row, two; always within their column. */
  function Forward(color: Color): int {
    if color == White then 1 else -1
  }

  function StartRow(color: Color): int {
    if color == White then 1 else 6
  }

  lemma PawnMoves(p: Piece, r: int, c: int)
    requires p.kind == Pawn
    ensures CanMove(p, r, c) <==>
      InBounds(r, c) && c == p.col &&
      (r == p.row + Forward(p.color) || (p.row == StartRow(p.color) && r == p.row + 2 * Forward(p.color)))
  {
  }

  /** A pawn captures exactly the enemies one square diagonally forward. */
  lemma PawnCaptures(p: Piece, o: Piece)
    requires p.kind == Pawn
    ensures !CanKill(p, None)
    ensures CanKill(p, Some(o)) <==>
      o.color != p.color && InBounds(o.row, o.col) &&
      o.row == p.row + Forward(p.color) && Abs(o.col - p.col) == 1
  {
  }

  /** No square is both a move target and a capture target of the same pawn. */
  lemma PawnMoveAndCaptureDisjoint(p: Piece, o: Piece)
    requires p.kind == Pawn
    ensures !(CanMove(p, o.row, o.col) && CanKill(p, Some(o)))
  {
  }

  // ---------------------------------------------------------------------------
  // Whole-board views of the rules, and the scenarios the tests check

  /** The squares of the board a piece can move to. */
  function Targets(p: Piece): set<(int, int)> {
    set r, c | 0 <= r <= 7 && 0 <= c <= 7 && CanMove(p, r, c) :: (r, c)
  }

  /** From (3, 3) a knight reaches exactly its eight L-squares. */
  lemma KnightFromCentre(color: Color)
    ensures Targets(Piece(Knight, 3, 3, color)) ==
      {(1, 2), (1, 4), (2, 1), (2, 5), (4, 1), (4, 5), (5, 2), (5, 4)}
  {
    var p := Piece(Knight, 3, 3, color);
    forall sq | sq in Targets(p)
      ensures sq in {(1, 2), (1, 4), (2, 1), (2, 5), (4, 1), (4, 5), (5, 2), (5, 4)}
    {
      assert CanMove(p, sq.0, sq.1);
    }
  }

  /** From (3, 3) a king reaches exactly its eight neighbours. */
  lemma KingFromCentre(color: Color)
    ensures Targets(Piece(King, 3, 3, color)) ==
      {(2, 2), (2, 3), (2, 4), (3, 2), (3, 4), (4, 2), (4, 3), (4, 4)}
  {
    var p := Piece(King, 3, 3, color);
    forall sq | sq in Targets(p)
      ensures sq in {(2, 2), (2, 3), (2, 4), (3, 2), (3, 4), (4, 2), (4, 3), (4, 4)}
    {
      assert CanMove(p, sq.0, sq.1);
    }
  }

  /** Constructions from the tests and further cases the rules decide: what is rejected, and why. */
  lemma ConstructionScenarios()
    ensures NewPiece(Rook, 0, 0, None) == Failure(NullColor)
    ensures NewPiece(Rook, -1, 0, Some(White)).Failure?
    ensures NewPiece(Rook, 0, 8, Some(Black)).Failure?
    ensures NewPiece(Pawn, 0, 3, Some(White)) == Failure(PawnOnRoyalRow(White))
    ensures NewPiece(Pawn, 7, 3, Some(Black)) == Failure(PawnOnRoyalRow(Black))
    ensures NewPiece(Pawn, 7, 3, Some(White)).Success?
    ensures NewPiece(Rook, 2, 5, Some(Black)) == Success(Piece(Rook, 2, 5, Black))
  {
  }

  /** Moves and captures from the tests and further cases the rules decide, with their answers. */
  lemma MoveScenarios()
    ensures CanMove(Piece(Bishop, 3, 3, White), 5, 5) && !CanMove(Piece(Bishop, 3, 3, White), 3, 6)
    ensures CanMove(Piece(Knight, 3, 3, White), 5, 4) && !CanMove(Piece(Knight, 3, 3, White), 4, 4)
    ensures CanMove(Piece(King, 3, 3, White), 4, 4) && !CanMove(Piece(King, 3, 3, White), 5, 3)
    ensures CanMove(Piece(Queen, 3, 3, White), 3, 7)
    ensures !CanMove(Piece(Queen, 3, 3, White), 5, 6) && !CanMove(Piece(Queen, 3, 3, White), 4, 6)
    ensures CanMove(Piece(Pawn, 1, 3, White), 3, 3) && !CanMove(Piece(Pawn, 2, 3, White), 4, 3)
    ensures CanMove(Piece(Pawn, 6, 4, Black), 4, 4) && !CanMove(Piece(Pawn, 4, 4, Black), 2, 4)
    ensures CanMove(Piece(Pawn, 3, 3, White), 4, 3)
    ensures !CanKill(Piece(Pawn, 3, 3, White), Some(Piece(Rook, 4, 3, Black)))
    ensures CanKill(Piece(Pawn, 3, 3, White), Some(Piece(Rook, 4, 4, Black)))
    ensures !CanKill(Piece(Pawn, 3, 3, White), Some(Piece(Queen, 2, 2, Black)))
    ensures CanKill(Piece(Pawn, 4, 4, Black), Some(Piece(Bishop, 3, 3, White)))
    ensures CanKill(Piece(Rook, 3, 3, White), Some(Piece(Bishop, 3, 7, Black)))
    ensures !CanKill(Piece(Rook, 3, 3, White), Some(Piece(Bishop, 3, 7, White)))
    ensures !CanKill(Piece(Rook, 3, 3, White), Some(Piece(Bishop, 5, 5, Black)))
    ensures !CanKill(Piece(King, 3, 3, White), Some(Piece(Rook, 5, 3, Black)))
  {
  }
}

=== FILE: fraction.dfy ===
/** A fraction with an int numerator and a positive int denominator, kept in lowest
    terms (FractionImpl). The two fields are updated in place by the setters, so the
    fraction is a class; reciprocal, add and compareTo build new values. */
module Fractions {
  import opened Wrappers
  import opened Euclid

  const INT_MIN: int := -0x8000_0000
  const INT_MAX: int := 0x7fff_ffff
  const LONG_MIN: int := -0x8000_0000_0000_0000
  const LONG_MAX: int := 0x7fff_ffff_ffff_ffff

  /** x fits in a Java int. */
  predicate IsInt(x: int) { INT_MIN <= x <= INT_MAX }

  /** x fits in a Java long. */
  predicate IsLong(x: int) { LONG_MIN <= x <= LONG_MAX }

  function Abs(x: int): nat { if x < 0 then -x else x }

  /** Java's int arithmetic: the result taken modulo 2^32 into the int range. */
  function Wrap32(x: int): (r: int)
    ensures IsInt(r)
    ensures IsInt(x) ==> r == x
  {
    (x - INT_MIN) % 0x1_0000_0000 + INT_MIN
  }

  /** Negating an int in Java arithmetic: only Integer.MIN_VALUE overflows, back to
      itself. */
  lemma Wrap32Negate(x: int)
    requires IsInt(x)
    ensures Wrap32(-x) == if x == INT_MIN then INT_MIN else -x
  {
    if x == INT_MIN {
      assert -x - INT_MIN == 0x1_0000_0000;
    }
  }

  /** Java's integer `/`: the quotient truncated toward zero. */
  function TruncDiv(x: int, y: int): int
    requires y != 0
  {
    if (x < 0) == (y < 0) then Abs(x) / Abs(y) else -(Abs(x) / Abs(y))
  }

  /** The exception a FractionImpl operation throws. */
  datatype Error = IllegalArgument(message: string)

  /** The class invariant on a numerator/denominator pair: positive denominator and
      lowest terms. Zero is then necessarily 0/1 (see ZeroIsZeroOverOne). */
  predicate Canonical(n: int, d: int) {
    d > 0 && Gcd(Abs(n), d) == 1
  }

  /** The rational number n/d, as a real. */
  function Value(n: int, d: int): real
    requires d != 0
  {
    n as real / d as real
  }

  lemma ZeroIsZeroOverOne(d: int)
    requires Canonical(0, d)
    ensures d == 1
  {
    GcdPositive(0, d);
  }

  /** Two pairs with positive denominators denote the same rational iff their cross
      products agree, and are ordered as their cross products are. */
  lemma ValueOrder(n1: int, d1: int, n2: int, d2: int)
    requires d1 > 0 && d2 > 0
    ensures Value(n1, d1) == Value(n2, d2) <==> n1 * d2 == n2 * d1
    ensures Value(n1, d1) < Value(n2, d2) <==> n1 * d2 < n2 * d1
  {
    var x, y := Value(n1, d1), Value(n2, d2);
    var p := d1 as real * d2 as real;
    assert p > 0.0;
    assert x * d1 as real == n1 as real;
    assert y * d2 as real == n2 as real;
    assert x * p == (n1 * d2) as real;
    assert y * p == (n2 * d1) as real;
  }

  /** Where validateAndNormalize leaves the fields for n/d with d > 0: zero becomes
      0/1, anything else is divided by gcd(|n|, d). The result is canonical, denotes
      the same rational, and is no larger in magnitude than its input. */
  function Normalized(n: int, d: int): (r: (int, int))
    requires d > 0
    ensures Canonical(r.0, r.1)
    ensures r.0 * d == n * r.1
    ensures Abs(r.0) <= Abs(n) && r.1 <= d
    ensures IsInt(n) && IsInt(d) ==> IsInt(r.0) && IsInt(r.1)
  {
    NormalizedFacts(n, d);
    if n == 0 then (0, 1)
    else
      var g := Gcd(Abs(n), d);
      (TruncDiv(n, g), d / g)
  }

  lemma NormalizedFacts(n: int, d: int)
    requires d > 0
    ensures n == 0 ==> Canonical(0, 1)
    ensures n != 0 ==>
      var g := Gcd(Abs(n), d);
      g > 0 && Canonical(TruncDiv(n, g), d / g) &&
      TruncDiv(n, g) * d == n * (d / g) &&
      Abs(TruncDiv(n, g)) <= Abs(n) && d / g <= d
  {
    if n == 0 {
      assert Gcd(0, 1) == 1;
    } else {
      var a := Abs(n);
      GcdPositive(a, d);
      GcdDivides(a, d);
      var g := Gcd(a, d);
      var x, y := a / g, d / g;
      ExactQuotient(g, a);
      ExactQuotient(g, d);
      ReducedCoprime(a, d, x, y);
      TruncDivExact(n, g, x);
      DivLeq(a, g);
      DivLeq(d, g);
      CofactorCross(n, d, g, x, y);
    }
  }

  /** An exact Java division of n by a positive g keeps the sign of n. */
  lemma TruncDivExact(n: int, g: int, x: int)
    requires g > 0 && x >= 0 && x * g == Abs(n)
    ensures TruncDiv(n, g) == if n < 0 then -x else x
    ensures Abs(TruncDiv(n, g)) == x
  {
    ModUnique(Abs(n), g, x, 0);
  }

  /** Dividing n and d by a common factor g keeps the cross products equal. */
  lemma CofactorCross(n: int, d: int, g: int, x: int, y: int)
    requires g > 0 && x >= 0 && x * g == Abs(n) && y * g == d
    ensures (if n < 0 then -x else x) * d == n * y
  {
    assert x * d == x * (y * g) == (x * g) * y;
    if n < 0 {
      assert -x * d == -(x * d);
      assert n * y == -(Abs(n) * y);
    }
  }

  /** Dividing by a positive number does not increase a natural number. */
  lemma DivLeq(a: nat, g: int)
    requires g > 0
    ensures a / g <= a
  {
    if a / g > a {
      MulAtLeast(g, a / g);
    }
  }

  /** A canonical pair is the only canonical pair denoting its rational. */
  lemma CanonicalUnique(n1: int, d1: int, n2: int, d2: int)
    requires Canonical(n1, d1) && Canonical(n2, d2)
    requires n1 * d2 == n2 * d1
    ensures n1 == n2 && d1 == d2
  {
    DenominatorDivides(n1, d1, n2, d2);
    DenominatorDivides(n2, d2, n1, d1);
    DivisorBound(d1, d2);
    DivisorBound(d2, d1);
    MulCancel(n1, n2, d1);
  }

  /** If n1/d1 == n2/d2 and n2/d2 is in lowest terms, d2 divides d1. */
  lemma DenominatorDivides(n1: int, d1: int, n2: int, d2: int)
    requires d1 > 0 && Canonical(n2, d2)
    requires n1 * d2 == n2 * d1
    ensures Divides(d2, d1)
  {
    var a1, a2 := Abs(n1), Abs(n2);
    assert a1 * d2 == a2 * d1 by {
      AbsMul(n1, d2);
      AbsMul(n2, d1);
    }
    // d2 divides a2 * d1 and d2 * d1, whose gcd is Gcd(a2, d2) * d1 == d1.
    MultipleDivides(d2, a1);
    assert a2 * d1 == d2 * a1;
    MultipleDivides(d2, d1);
    GcdGreatest(a2 * d1, d2 * d1, d2);
    GcdScale(a2, d2, d1);
  }

  lemma AbsMul(n: int, d: int)
    requires d > 0
    ensures Abs(n * d) == Abs(n) * d
  {
    if n < 0 {
      assert n * d == -(Abs(n) * d);
    }
  }

  /** Normalising a canonical pair leaves it as it is. */
  lemma NormalizedOfCanonical(n: int, d: int)
    requires Canonical(n, d)
    ensures Normalized(n, d) == (n, d)
  {
    var r := Normalized(n, d);
    CanonicalUnique(r.0, r.1, n, d);
  }

  /** Normalising preserves the rational value. */
  lemma NormalizedValue(n: int, d: int)
    requires d > 0
    ensures Value(Normalized(n, d).0, Normalized(n, d).1) == Value(n, d)
  {
    var r := Normalized(n, d);
    ValueOrder(r.0, r.1, n, d);
  }

  // ---------------------------------------------------------------------------
  // Euclid's loops (gcd on ints, gcdLong on longs)

  /** gcd(a, b) for non-negative ints: repeatedly replace (a, b) by (b, a % b). Java's
      `%` agrees with Dafny's on non-negative operands. */
  method GcdInt(a: int, b: int) returns (g: int)
    requires 0 <= a <= INT_MAX && 0 <= b <= INT_MAX
    ensures g == Gcd(a, b)
    ensures IsInt(g)
  {
    var x, y := a, b;
    while y != 0
      invariant 0 <= x <= INT_MAX && 0 <= y <= INT_MAX
      invariant Gcd(x, y) == Gcd(a, b)
      decreases y
    {
      var r := x % y;
      x := y;
      y := r;
    }
    g := x;
  }

  /** The same loop on non-negative longs. */
  method GcdLong(a: int, b: int) returns (g: int)
    requires 0 <= a <= LONG_MAX && 0 <= b <= LONG_MAX
    ensures g == Gcd(a, b)
    ensures IsLong(g)
  {
    var x, y := a, b;
    while y != 0
      invariant 0 <= x <= LONG_MAX && 0 <= y <= LONG_MAX
      invariant Gcd(x, y) == Gcd(a, b)
      decreases y
    {
      var r := x % y;
      x := y;
      y := r;
    }
    g := x;
  }

  // ---------------------------------------------------------------------------
  // Text: Java's decimal rendering of an int, and toString's "n / d"

  function DigitChar(k: int): char
    requires 0 <= k < 10
  {
    "0123456789"[k]
  }

  predicate IsDigits(s: string) {
    forall i :: 0 <= i < |s| ==> '0' <= s[i] <= '9'
  }

  /** The decimal digits of n, most significant first, without leading zeros. */
  function NatText(n: nat): (s: string)
    ensures |s| > 0 && IsDigits(s)
  {
    if n < 10 then [DigitChar(n)] else NatText(n / 10) + [DigitChar(n % 10)]
  }

  /** An int as Java writes it when concatenated to a string. */
  function IntText(x: int): string {
    if x < 0 then "-" + NatText(-x) else NatText(x)
  }

  /** Reading a digit string back as a number. */
  function ParseNat(s: string): nat
    requires IsDigits(s)
  {
    if s == [] then 0 else ParseNat(s[..|s| - 1]) * 10 + (s[|s| - 1] - '0') as int
  }

  function ParseInt(s: string): int
    requires |s| > 0 && (s[0] == '-' ==> IsDigits(s[1..])) && (s[0] != '-' ==> IsDigits(s))
  {
    if s[0] == '-' then -(ParseNat(s[1..]) as int) else ParseNat(s)
  }

  lemma {:induction false} NatTextRoundTrip(n: nat)
    ensures ParseNat(NatText(n)) == n
  {
    if n >= 10 {
      NatTextRoundTrip(n / 10);
      var s := NatText(n);
      assert s[..|s| - 1] == NatText(n / 10);
    }
  }

  /** Reading back the text of an int gives the int. */
  lemma IntTextRoundTrip(x: int)
    ensures var s := IntText(x);
      |s| > 0 && (s[0] == '-' ==> IsDigits(s[1..])) && (s[0] != '-' ==> IsDigits(s)) &&
      ParseInt(s) == x
  {
    var s := IntText(x);
    if x < 0 {
      var t := NatText(-x);
      NatTextRoundTrip(-x);
      assert s == "-" + t;
      assert s[0] == '-' && s[1..] == t;
      assert ParseInt(s) == -(ParseNat(t) as int);
    } else {
      NatTextRoundTrip(x);
      assert s == NatText(x) && IsDigits(s);
      assert '0' <= s[0] <= '9';
    }
  }

  /** toString's text for the fraction n/d. */
  function FractionText(n: int, d: int): string {
    IntText(n) + " / " + IntText(d)
  }

  /** Different fractions print differently: the text determines both fields. */
  lemma FractionTextInjective(n1: int, d1: int, n2: int, d2: int)
    requires FractionText(n1, d1) == FractionText(n2, d2)
    ensures n1 == n2 && d1 == d2
  {
    NoSpaceInIntText(n1);
    NoSpaceInIntText(n2);
    SplitAtSeparator(IntText(n1), IntText(d1), IntText(n2), IntText(d2));
    IntTextRoundTrip(n1);
    IntTextRoundTrip(d1);
    IntTextRoundTrip(n2);
    IntTextRoundTrip(d2);
  }

  /** " / " after a space-free prefix splits a string in exactly one way. */
  lemma SplitAtSeparator(s1: string, t1: string, s2: string, t2: string)
    requires forall i :: 0 <= i < |s1| ==> s1[i] != ' '
    requires forall i :: 0 <= i < |s2| ==> s2[i] != ' '
    requires s1 + " / " + t1 == s2 + " / " + t2
    ensures s1 == s2 && t1 == t2
  {
    var t := s1 + " / " + t1;
    assert t[|s1|] == ' ' && t[|s2|] == ' ';
    assert |s1| == |s2|;
    assert s1 == t[..|s1|] == s2;
    assert t1 == t[|s1| + 3..] == t2;
  }

  lemma NoSpaceInIntText(x: int)
    ensures forall i :: 0 <= i < |IntText(x)| ==> IntText(x)[i] != ' '
  {
    var n := if x < 0 then -x else x;
    assert IsDigits(NatText(n));
  }

  // ---------------------------------------------------------------------------
  // The class

  /** Both long products of add: a*d + c*b and b*d stay inside the long range,
      so widening to long is enough to compute them exactly. */
  lemma AddFitsLong(a: int, b: int, c: int, d: int)
    requires IsInt(a) && IsInt(c) && 0 < b <= INT_MAX && 0 < d <= INT_MAX
    ensures IsLong(a * d + c * b) && a * d + c * b > LONG_MIN
    ensures 0 < b * d <= LONG_MAX
  {
    ProductBound(a, d);
    ProductBound(c, b);
    ProductBound(b, d);
    MulLe(0, b, d);
  }

  lemma ProductBound(x: int, y: int)
    requires IsInt(x) && 0 < y <= INT_MAX
    ensures -0x4000_0000_0000_0000 < x * y < 0x4000_0000_0000_0000
  {
    MulLe(x, INT_MAX, y);
    MulLe(INT_MIN, x, y);
    MulLe(y, INT_MAX, INT_MAX);
    MulLe(y, INT_MAX, -INT_MIN);
  }

  /** Multiplying by a non-negative number is monotonic. */
  lemma MulLe(x1: int, x2: int, y: int)
    requires x1 <= x2 && y >= 0
    ensures x1 * y <= x2 * y
  {
    assert x2 * y - x1 * y == (x2 - x1) * y;
  }

  class FractionImpl {
    var numerator: int
    var denominator: int

    /** Both fields are ints and the pair is in lowest terms with a positive
        denominator. */
    ghost predicate Valid()
      reads this
    {
      IsInt(numerator) && IsInt(denominator) && Canonical(numerator, denominator)
    }

    /** new FractionImpl(n, d) for a denominator it accepts; Create models the
        rejection of the others. */
    constructor (n: int, d: int)
      requires IsInt(n) && IsInt(d) && d > 0
      ensures Valid() && (numerator, denominator) == Normalized(n, d)
    {
      new;
      var ok := ValidateAndNormalize(n, d);
    }

    /** new FractionImpl(n, d): throws for d <= 0, otherwise a fresh fraction holding
        n/d in lowest terms. */
    static method Create(n: int, d: int) returns (r: Result<FractionImpl, Error>)
      requires IsInt(n) && IsInt(d)
      ensures r.Failure? <==> d <= 0
      ensures r.Success? ==>
        fresh(r.value) && r.value.Valid() &&
        (r.value.numerator, r.value.denominator) == Normalized(n, d)
    {
      if d <= 0 {
        return Failure(IllegalArgument("Denominator must be positive."));
      }
      var f := new FractionImpl(n, d);
      return Success(f);
    }

    /** validateAndNormalize(n, d): the denominator is checked before any field is
        written, so a rejected call (ok == false, Java's exception) changes nothing. */
    method ValidateAndNormalize(n: int, d: int) returns (ok: bool)
      requires IsInt(n) && IsInt(d)
      modifies this
      ensures ok <==> d > 0
      ensures ok ==> Valid() && (numerator, denominator) == Normalized(n, d)
      ensures !ok ==> unchanged(this)
    {
      // validateDenominator
      if d <= 0 {
        return false;
      }
      ok := true;
      if n == 0 {
        numerator := 0;
        denominator := 1;
        return;
      }
      // gcd of |n| and d: the int loop, except for Integer.MIN_VALUE, whose
      // magnitude needs a long
      var g;
      if n != INT_MIN {
        g := GcdInt(Abs(n), d);
      } else {
        g := GcdLong(Abs(n), d);
      }
      GcdPositive(Abs(n), d);
      var r := Normalized(n, d);
      assert r == (TruncDiv(n, g), d / g);
      numerator := TruncDiv(n, g);
      denominator := d / g;
    }

    /** setNumerator(n): renormalises n over the current denominator. */
    method SetNumerator(n: int)
      requires Valid() && IsInt(n)
      modifies this
      ensures Valid() && (numerator, denominator) == Normalized(n, old(denominator))
    {
      var ok := ValidateAndNormalize(n, denominator);
    }

    /** setDenominator(d): rejects d <= 0 leaving the fraction as it was, otherwise
        renormalises the current numerator over d. */
    method SetDenominator(d: int) returns (ok: bool)
      requires Valid() && IsInt(d)
      modifies this
      ensures ok <==> d > 0
      ensures Valid()
      ensures ok ==> (numerator, denominator) == Normalized(old(numerator), d)
      ensures !ok ==> unchanged(this)
    {
      ok := ValidateAndNormalize(numerator, d);
    }

    /** reciprocal(): throws for 0. Otherwise d/n with the sign moved to the
        numerator. The negation is int arithmetic: for numerator Integer.MIN_VALUE it
        wraps, the new denominator stays negative and the constructor throws (the
        true reciprocal's denominator 2^31 does not fit in an int). */
    method Reciprocal() returns (r: Result<FractionImpl, Error>)
      requires Valid()
      ensures r.Failure? <==> numerator == 0 || numerator == INT_MIN
      ensures r.Success? ==>
        fresh(r.value) && r.value.Valid() &&
        r.value.numerator == (if numerator < 0 then -denominator else denominator) &&
        r.value.denominator == Abs(numerator) &&
        Value(r.value.numerator, r.value.denominator) * Value(numerator, denominator) == 1.0
    {
      if numerator == 0 {
        return Failure(IllegalArgument("Undefined: cannot take reciprocal of 0."));
      }
      var newNum := denominator;
      var newDen := numerator;
      if newDen < 0 {
        Wrap32Negate(newNum);
        Wrap32Negate(newDen);
        newNum := Wrap32(-newNum);
        newDen := Wrap32(-newDen);
      }
      if newDen > 0 {
        ReciprocalCanonical(numerator, denominator, newNum, newDen);
      }
      r := Create(newNum, newDen);
    }

    /** add(other): throws for null; otherwise the exact sum a/b + c/d in lowest
        terms, computed with long products, and throws when that lowest-terms form
        does not fit in int. */
    method Add(other: FractionImpl?) returns (r: Result<FractionImpl, Error>)
      requires Valid()
      requires other != null ==> other.Valid()
      ensures other == null ==> r.Failure?
      ensures r.Success? ==>
        other != null && fresh(r.value) && r.value.Valid() &&
        Value(r.value.numerator, r.value.denominator) ==
          Value(numerator, denominator) + Value(other.numerator, other.denominator)
      ensures r.Failure? && other != null ==>
        forall p, q :: Canonical(p, q) &&
          Value(p, q) == Value(numerator, denominator) + Value(other.numerator, other.denominator)
          ==> !(IsInt(p) && IsInt(q))
    {
      if other == null {
        return Failure(IllegalArgument("other cannot be null"));
      }
      var a, b, c, d := numerator, denominator, other.numerator, other.denominator;
      AddFitsLong(a, b, c, d);
      var newNum := a * d + c * b;
      var newDen := b * d;
      SumValue(a, b, c, d);
      var g := GcdLong(Abs(newNum), newDen);
      GcdPositive(Abs(newNum), newDen);
      ghost var sumNum, sumDen := newNum, newDen;
      newNum := TruncDiv(newNum, g);
      newDen := newDen / g;
      ReducedSum(sumNum, sumDen, g);
      if newNum < INT_MIN || newNum > INT_MAX || newDen > INT_MAX {
        NoIntForm(newNum, newDen, Value(a, b) + Value(c, d));
        return Failure(IllegalArgument("Result out of int range."));
      }
      NormalizedOfCanonical(newNum, newDen);
      r := Create(newNum, newDen);
    }

    /** compareTo(other): throws for null; otherwise Long.compare of the cross
        products a*d and c*b, which orders the fractions by value. */
    method CompareTo(other: FractionImpl?) returns (r: Result<int, Error>)
      requires Valid()
      requires other != null ==> other.Valid()
      ensures r.Failure? <==> other == null
      ensures r.Success? ==> (other != null &&
        var x, y := Value(numerator, denominator), Value(other.numerator, other.denominator);
        r.value in {-1, 0, 1} &&
        (r.value < 0 <==> x < y) && (r.value == 0 <==> x == y) && (r.value > 0 <==> x > y))
    {
      if other == null {
        return Failure(IllegalArgument("other cannot be null"));
      }
      ProductBound(numerator, other.denominator);
      ProductBound(other.numerator, denominator);
      var longThis := numerator * other.denominator;
      var longOther := other.numerator * denominator;
      assert IsLong(longThis) && IsLong(longOther);
      ValueOrder(numerator, denominator, other.numerator, other.denominator);
      ValueOrder(other.numerator, other.denominator, numerator, denominator);
      r := Success(if longThis < longOther then -1 else if longThis == longOther then 0 else 1);
    }

    /** toString(): "numerator / denominator". Normalisation makes every zero print
        as "0 / 1". */
    function ToString(): (s: string)
      reads this
      ensures Valid() && numerator == 0 ==> s == "0 / 1"
    {
      ZeroText(numerator, denominator);
      FractionText(numerator, denominator)
    }
  }

  /** The only canonical zero prints as "0 / 1". */
  lemma ZeroText(n: int, d: int)
    ensures Canonical(n, d) && n == 0 ==> FractionText(n, d) == "0 / 1"
  {
    if Canonical(n, d) && n == 0 {
      ZeroIsZeroOverOne(d);
      assert NatText(0) == "0" && NatText(1) == "1";
    }
  }

  /** d/n with the sign on top is again in lowest terms, so normalising it changes
      nothing, and it is the multiplicative inverse of n/d. */
  lemma ReciprocalCanonical(n: int, d: int, rn: int, rd: int)
    requires Canonical(n, d) && n != 0 && rd == Abs(n) && rn == (if n < 0 then -d else d)
    ensures Normalized(rn, rd) == (rn, rd)
    ensures Value(rn, rd) * Value(n, d) == 1.0
  {
    GcdComm(Abs(n), d);
    assert Abs(rn) == d;
    NormalizedOfCanonical(rn, rd);
    ReciprocalValue(n, d, rn, rd);
  }

  /** d/n (sign on top) is the multiplicative inverse of n/d. */
  lemma ReciprocalValue(n: int, d: int, rn: int, rd: int)
    requires d > 0 && n != 0 && rd == Abs(n) && rn == (if n < 0 then -d else d)
    ensures Value(rn, rd) * Value(n, d) == 1.0
  {
    assert rn * n == d * rd;
    var x, y := Value(rn, rd), Value(n, d);
    assert x * rd as real == rn as real;
    assert y * d as real == n as real;
    assert (x * y) * (rd as real * d as real) == (rn * n) as real;
  }

  /** The value of (a*d + c*b)/(b*d) is a/b + c/d. */
  lemma SumValue(a: int, b: int, c: int, d: int)
    requires b > 0 && d > 0
    ensures b * d > 0
    ensures Value(a * d + c * b, b * d) == Value(a, b) + Value(c, d)
  {
    var x, y := Value(a, b), Value(c, d);
    assert x * b as real == a as real;
    assert y * d as real == c as real;
    assert (x + y) * (b * d) as real == (a * d + c * b) as real;
  }

  /** Dividing the long sum by gcdLong(|sum|, den) gives its normal form, which has
      the same value. */
  lemma ReducedSum(n: int, d: int, g: int)
    requires d > 0 && g == Gcd(Abs(n), d)
    ensures g > 0
    ensures (TruncDiv(n, g), d / g) == Normalized(n, d)
    ensures Value(TruncDiv(n, g), d / g) == Value(n, d)
  {
    GcdPositive(Abs(n), d);
    NormalizedFacts(n, d);
    NormalizedValue(n, d);
    if n == 0 {
      assert g == d;
      assert TruncDiv(n, g) == 0 && d / g == 1;
    }
  }

  /** If the canonical form of v is out of int range, so is every canonical pair
      denoting v. */
  lemma NoIntForm(n: int, d: int, v: real)
    requires Canonical(n, d) && Value(n, d) == v && !(IsInt(n) && IsInt(d))
    ensures forall p, q :: Canonical(p, q) && Value(p, q) == v ==> !(IsInt(p) && IsInt(q))
  {
    forall p, q | Canonical(p, q) && Value(p, q) == v
      ensures p == n && q == d
    {
      ValueOrder(p, q, n, d);
      CanonicalUnique(p, q, n, d);
    }
  }

  /** Normal forms of the fractions the tests build. */
  lemma NormalizeScenarios()
    ensures Normalized(4, 2) == (2, 1) && Normalized(-2, 4) == (-1, 2)
    ensures Normalized(0, 5) == (0, 1) && Normalized(12, 18) == (2, 3)
    ensures Normalized(6, 15) == (2, 5)
  {
    assert Gcd(4, 2) == Gcd(2, 0) == 2;
    assert Gcd(2, 4) == Gcd(4, 2);
    assert Gcd(12, 18) == Gcd(18, 12) == Gcd(12, 6) == Gcd(6, 0) == 6;
    assert Gcd(6, 15) == Gcd(15, 6) == Gcd(6, 3) == Gcd(3, 0) == 3;
  }

  /** The texts the tests expect for -1/2 and 0/1. */
  lemma TextScenarios()
    ensures FractionText(-1, 2) == "-1 / 2" && FractionText(0, 1) == "0 / 1"
  {
    assert NatText(1) == "1" && NatText(2) == "2" && NatText(0) == "0";
  }

  // ---------------------------------------------------------------------------
  // validateAndNormalize exactly as written, in 32-bit int arithmetic

  /** Java's `%` on ints: the remainder takes the sign of the dividend. */
  function TruncRem(x: int, y: int): (r: int)
    requires y != 0
    ensures Abs(r) < Abs(y)
  {
    if x >= 0 then Abs(x) % Abs(y) else -(Abs(x) % Abs(y))
  }

  /** Math.abs on an int: the negation wraps, so Math.abs(Integer.MIN_VALUE) is
      Integer.MIN_VALUE. */
  function AbsInt(x: int): int {
    if x < 0 then Wrap32(-x) else x
  }

  /** The value the gcd loop returns when run on arbitrary ints, including the
      negative first argument that Math.abs(Integer.MIN_VALUE) hands it. */
  function GcdAsWritten(a: int, b: int): (g: int)
    ensures a != 0 || b != 0 ==> g != 0
    decreases Abs(b)
  {
    if b == 0 then a else GcdAsWritten(b, TruncRem(a, b))
  }

  /** The fields validateAndNormalize stores for n/d, d > 0, when every step is int
      arithmetic: g = gcd(Math.abs(n), d), then n /= g and d /= g. */
  function NormalizeAsWritten(n: int, d: int): (r: (int, int))
    requires IsInt(n) && 0 < d <= INT_MAX
    ensures IsInt(r.0) && IsInt(r.1)
    ensures n == 0 ==> r == (0, 1)
  {
    if n == 0 then (0, 1)
    else
      var g := GcdAsWritten(AbsInt(n), d);
      (Wrap32(TruncDiv(n, g)), Wrap32(TruncDiv(d, g)))
  }

  /** On non-negative arguments the loop computes the gcd. */
  lemma {:induction false} GcdAsWrittenNonNegative(a: int, b: int)
    requires a >= 0 && b >= 0
    ensures GcdAsWritten(a, b) == Gcd(a, b)
    decreases b
  {
    if b != 0 {
      GcdAsWrittenNonNegative(b, a % b);
    }
  }

  /** For every numerator except Integer.MIN_VALUE the code as written stores exactly
      the normal form. */
  lemma NormalizeAsWrittenAgrees(n: int, d: int)
    requires IsInt(n) && n != INT_MIN && 0 < d <= INT_MAX
    ensures NormalizeAsWritten(n, d) == Normalized(n, d)
  {
    if n != 0 {
      GcdAsWrittenNonNegative(Abs(n), d);
      GcdPositive(Abs(n), d);
      var g := Gcd(Abs(n), d);
      assert AbsInt(n) == Abs(n);
      assert TruncDiv(d, g) == d / g;
      var r := Normalized(n, d);
      assert r == (TruncDiv(n, g), d / g);
    }
  }

  /** new FractionImpl(Integer.MIN_VALUE, 5) as written: Math.abs leaves the
      numerator negative, the loop returns -1, and the fields become
      Integer.MIN_VALUE / -5, which has a negative denominator and the opposite sign.
      The normal form -2147483648/5 is itself a pair of ints. */
  lemma NormalizeMinValueAsWritten()
    ensures NormalizeAsWritten(INT_MIN, 5) == (INT_MIN, -5)
    ensures !Canonical(INT_MIN, -5)
    ensures Normalized(INT_MIN, 5) == (INT_MIN, 5)
  {
    assert AbsInt(INT_MIN) == INT_MIN;
    calc {
      GcdAsWritten(INT_MIN, 5);
      { assert TruncRem(INT_MIN, 5) == -3; }
      GcdAsWritten(5, -3);
      { assert TruncRem(5, -3) == 2; }
      GcdAsWritten(-3, 2);
      { assert TruncRem(-3, 2) == -1; }
      GcdAsWritten(2, -1);
      { assert TruncRem(2, -1) == 0; }
      GcdAsWritten(-1, 0);
      -1;
    }
    assert TruncDiv(INT_MIN, -1) == 0x8000_0000;
    assert Wrap32(0x8000_0000) == INT_MIN;
    assert TruncDiv(5, -1) == -5;
    calc {
      Gcd(0x8000_0000, 5);
      Gcd(5, 3);
      Gcd(3, 2);
      Gcd(2, 1);
      Gcd(1, 0);
      1;
    }
  }

  /** Whether the code as written goes wrong for an Integer.MIN_VALUE numerator
      depends on the denominator: over 1 and 3 the loop returns 1 and the normal
      form is stored, while over 6 it returns -2 and the fields become
      1073741824 / -3, the right value with a negative denominator. */
  lemma NormalizeMinValueOtherDenominators()
    ensures NormalizeAsWritten(INT_MIN, 1) == Normalized(INT_MIN, 1) == (INT_MIN, 1)
    ensures NormalizeAsWritten(INT_MIN, 3) == Normalized(INT_MIN, 3) == (INT_MIN, 3)
    ensures NormalizeAsWritten(INT_MIN, 6) == (0x4000_0000, -3)
    ensures Normalized(INT_MIN, 6) == (-0x4000_0000, 3)
  {
    assert AbsInt(INT_MIN) == INT_MIN;
    calc {
      GcdAsWritten(INT_MIN, 1);
      { assert TruncRem(INT_MIN, 1) == 0; }
      GcdAsWritten(1, 0);
      1;
    }
    calc {
      GcdAsWritten(INT_MIN, 3);
      { assert TruncRem(INT_MIN, 3) == -2; }
      GcdAsWritten(3, -2);
      { assert TruncRem(3, -2) == 1; }
      GcdAsWritten(-2, 1);
      { assert TruncRem(-2, 1) == 0; }
      GcdAsWritten(1, 0);
      1;
    }
    calc {
      GcdAsWritten(INT_MIN, 6);
      { assert TruncRem(INT_MIN, 6) == -2; }
      GcdAsWritten(6, -2);
      { assert TruncRem(6, -2) == 0; }
      GcdAsWritten(-2, 0);
      -2;
    }
    assert TruncDiv(INT_MIN, -2) == 0x4000_0000;
    assert TruncDiv(6, -2) == -3;
    calc {
      Gcd(0x8000_0000, 1);
      Gcd(1, 0);
      1;
    }
    calc {
      Gcd(0x8000_0000, 3);
      Gcd(3, 2);
      Gcd(2, 1);
      Gcd(1, 0);
      1;
    }
    calc {
      Gcd(0x8000_0000, 6);
      Gcd(6, 2);
      Gcd(2, 0);
      2;
    }
  }

  /** add(-2147483647/5, -1/5) as written: the long sum -10737418240/25 reduces to
      Integer.MIN_VALUE/5, which passes the range check, and the constructor it is
      handed to then stores Integer.MIN_VALUE / -5, as above. */
  lemma AddMinValueAsWritten()
    ensures Canonical(-2147483647, 5) && Canonical(-1, 5)
    ensures -2147483647 * 5 + -1 * 5 == -10737418240 && 5 * 5 == 25
    ensures Normalized(-10737418240, 25) == (INT_MIN, 5)
    ensures NormalizeAsWritten(INT_MIN, 5) == (INT_MIN, -5)
  {
    NormalizeMinValueAsWritten();
    calc {
      Gcd(2147483647, 5);
      Gcd(5, 2);
      Gcd(2, 1);
      Gcd(1, 0);
      1;
    }
    calc {
      Gcd(10737418240, 25);
      Gcd(25, 15);
      Gcd(15, 10);
      Gcd(10, 5);
      Gcd(5, 0);
      5;
    }
  }
}

=== FILE: gcd.dfy ===
/** Euclid's greatest common divisor on natural numbers, and the facts about it
    that the fraction normalisation relies on. */
module Euclid {

  /** k divides x (k must be positive for this to hold). */
  predicate Divides(k: int, x: int) {
    k > 0 && x % k == 0
  }

  /** The mathematical gcd, defined by the same recurrence Euclid's loop follows:
      gcd(a, 0) == a and gcd(a, b) == gcd(b, a % b). */
  function Gcd(a: nat, b: nat): nat
    decreases b
  {
    if b == 0 then a else Gcd(b, a % b)
  }

  /** The gcd is zero only for (0, 0) and never exceeds a positive argument. */
  lemma {:induction false} GcdPositive(a: nat, b: nat)
    requires a > 0 || b > 0
    ensures Gcd(a, b) > 0
    ensures b > 0 ==> Gcd(a, b) <= b
    ensures a > 0 && b == 0 ==> Gcd(a, b) == a
    decreases b
  {
    if b != 0 {
      if a % b != 0 {
        GcdPositive(b, a % b);
      }
    }
  }

  /** If k divides x and y, it divides every x * m + y. */
  lemma DividesLinear(k: int, x: int, y: int, m: int)
    requires Divides(k, x) && Divides(k, y)
    ensures Divides(k, x * m + y)
  {
    var qx, qy := x / k, y / k;
    assert x == k * qx;
    assert y == k * qy;
    assert x * m + y == k * (qx * m + qy);
    MultipleDivides(k, qx * m + qy);
  }

  /** k divides every multiple of itself. */
  lemma MultipleDivides(k: int, q: int)
    requires k > 0
    ensures Divides(k, k * q)
  {
    assert (k * q) / k == q && (k * q) % k == 0 by {
      ModUnique(k * q, k, q, 0);
    }
  }

  /** Division with remainder is unique: x == q * k + r with 0 <= r < k fixes x / k and x % k. */
  lemma ModUnique(x: int, k: int, q: int, r: int)
    requires k > 0 && 0 <= r < k && x == q * k + r
    ensures x / k == q && x % k == r
  {
    var q', r' := x / k, x % k;
    assert q' * k + r' == q * k + r;
    if q' < q {
      MulAtLeast(q - q', k);
    } else if q' > q {
      MulAtLeast(q' - q, k);
    }
  }

  /** A positive multiple of k is at least k. */
  lemma MulAtLeast(d: int, k: int)
    requires d >= 1 && k > 0
    ensures d * k >= k
  {
    assert d * k == k + (d - 1) * k;
    assert (d - 1) * k >= 0;
  }

  /** The gcd divides both arguments. */
  lemma {:induction false} GcdDivides(a: nat, b: nat)
    requires a > 0 || b > 0
    ensures Divides(Gcd(a, b), a) && Divides(Gcd(a, b), b)
    decreases b
  {
    GcdPositive(a, b);
    var g := Gcd(a, b);
    if b == 0 {
      MultipleDivides(a, 1);
      MultipleDivides(a, 0);
    } else {
      GcdDivides(b, a % b);
      // a == b * (a / b) + a % b
      DividesLinear(g, b, a % b, a / b);
      assert b * (a / b) + a % b == a;
    }
  }

  /** Every common divisor of a and b divides their gcd. */
  lemma {:induction false} GcdGreatest(a: nat, b: nat, k: int)
    requires Divides(k, a) && Divides(k, b)
    ensures Divides(k, Gcd(a, b))
    decreases b
  {
    if b != 0 {
      // a % b == a + b * (-(a / b))
      DividesLinear(k, b, a, -(a / b));
      assert b * -(a / b) + a == a % b;
      GcdGreatest(b, a % b, k);
    }
  }

  /** A positive divisor of a positive number is no larger than it. */
  lemma DivisorBound(k: int, x: int)
    requires Divides(k, x) && x > 0
    ensures k <= x
  {
    var q := x / k;
    assert x == k * q;
    assert q >= 1;
    MulAtLeast(q, k);
  }

  /** Scaling both arguments scales the gcd. */
  lemma {:induction false} GcdScale(a: nat, b: nat, k: nat)
    requires k > 0
    ensures Gcd(a * k, b * k) == Gcd(a, b) * k
    decreases b
  {
    if b != 0 {
      assert b * k > 0;
      // (a * k) % (b * k) == (a % b) * k
      assert a * k == (a / b) * (b * k) + (a % b) * k;
      assert 0 <= (a % b) * k < b * k;
      ModUnique(a * k, b * k, a / b, (a % b) * k);
      GcdScale(b, a % b, k);
    }
  }

  /** Dividing both arguments by their gcd leaves coprime numbers: if x and y are
      the cofactors of a and b with respect to Gcd(a, b), then Gcd(x, y) == 1. */
  lemma ReducedCoprime(a: nat, b: nat, x: nat, y: nat)
    requires a > 0 || b > 0
    requires x * Gcd(a, b) == a && y * Gcd(a, b) == b
    ensures Gcd(x, y) == 1
  {
    GcdPositive(a, b);
    var g := Gcd(a, b);
    GcdScale(x, y, g);
    MulCancel(Gcd(x, y), 1, g);
  }

  /** An exact quotient multiplied back gives the dividend. */
  lemma ExactQuotient(k: int, x: int)
    requires Divides(k, x)
    ensures (x / k) * k == x
  {
  }

  /** Cancelling a positive factor. */
  lemma MulCancel(x: int, y: int, k: int)
    requires k > 0 && x * k == y * k
    ensures x == y
  {
    if x < y {
      MulAtLeast(y - x, k);
    } else if x > y {
      MulAtLeast(x - y, k);
    }
  }

  /** The gcd does not depend on the order of its arguments. */
  lemma GcdComm(a: nat, b: nat)
    requires a > 0 || b > 0
    ensures Gcd(a, b) == Gcd(b, a)
  {
    GcdPositive(a, b);
    GcdPositive(b, a);
    GcdDivides(a, b);
    GcdDivides(b, a);
    GcdGreatest(b, a, Gcd(a, b));
    GcdGreatest(a, b, Gcd(b, a));
    DivisorBound(Gcd(a, b), Gcd(b, a));
    DivisorBound(Gcd(b, a), Gcd(a, b));
  }
}

=== FILE: wrappers.dfy ===
/** The optional value and the success-or-error outcome used in place of Java's
    null references and thrown IllegalArgumentExceptions. */
module Wrappers {

  datatype Option<+T> = None | Some(value: T)

  datatype Result<+T, +E> = Success(value: T) | Failure(error: E)
}
